=== FILE: README.md ===
# geo-map core in Dafny

A model of the engine-independent logic of the `geo-map` web component, which
embeds a map-rendering engine in a page:

- **GeoJSON analysis and layer styling** (`src/geojson-helpers.js`):
  `describeGeoJSON` folds once over a feature list. It collects the geometry
  types in first-occurrence order, as a JavaScript `Set` does. It also keeps a
  `{min, max}` range for every property key that ever holds a number.
  `generateLayerStyle` turns each collected geometry type into one layer
  descriptor: an id, a layer type from `getLayerType`, the fixed source
  `geojson-data` and a fixed paint.
  Modules `GeoJson` (`geojson.dfy`) and `LayerStyle` (`layer_style.dfy`).
- **Zoom classes** (`handleZoom` in `src/geo-map.js`): the zoom level and the
  two `zoom-breakpoints` choose exactly one of the element's classes `far`,
  `middle` and `near`; the other two are removed and every other class is
  kept. Module `Zoom` (`zoom.dfy`).
- **Constructor settings** (`src/geo-map.js`): each setting is resolved by
  the JavaScript `||` chain default ← attribute ← URL value. The constructor
  logs an error and returns early when the engine global or the
  `accesstoken` attribute is missing.
  The resolved settings become the options handed to the engine. The
  geocoder's `search-bounds` list is split at commas. Module `Config`
  (`config.dfy`).
- **Template population** (`populateTemplate` in `src/helpers.js`): a
  left-to-right scan replaces each `${key}` (key = `[A-Za-z0-9_]+`) by
  `data[key]` when the key is defined and keeps it verbatim otherwise.
  Module `Template` (`template.dfy`).

Supporting modules: `Wrappers` (`Option`, `Result`); `JsValues` (JavaScript
values, truthiness, `||`, and numbers that may be infinite or NaN, with
JavaScript's comparisons, which are always false against NaN); `Strings` (`split` on one character, its inverse `join`, and
`trim`, with split/join round trips proved both ways).

The model states what the code does, including these behaviours, which a
reader might not expect:
- The breakpoint order is not checked. With `mid < far` the class `middle` is
  never chosen (`Zoom.InvertedBreakpointsSkipMiddle`).
- A `zoom-breakpoints` value without a comma leaves `far` undefined. Every
  zoom then compares false against it and is classified `near`
  (`Zoom.SingleFieldBreakpointsAlwaysNear`).
- The number of `search-bounds` fields is not checked.
- Latitude, longitude, zoom, bearing and pitch are never parsed. They stay the
  attribute string, the decoded URL value or the numeric default.
- The constructor checks only for a missing engine and a missing `accesstoken`
  attribute. An empty token is accepted. (A malformed URL parameter can still
  throw: see `Config.Resolve` under "## Left out".)

`Number(...)` is a parameter `toNumber: string -> JsNumber` wherever the code
converts strings to numbers. The URL parameters are an input map: the result
of `getURLValues`.

## Model

| member | source | states |
|---|---|---|
| GeoJson.TypeOf | src/geojson-helpers.js:8-10 | a feature contributes a type exactly when it has a geometry whose `type` is a non-empty string, and then that string |
| GeoJson.Observe | src/geojson-helpers.js:17-21 | the first number seen under a key gives `min = max = value`; later ones only lower `min` or raise `max`, to the old bound or the new value |
| GeoJson.AddRanges | src/geojson-helpers.js:13-25 | one feature's pass over its properties: every number the feature holds under a key is recorded, opening `min = max = value` for a new key and otherwise updated as `Observe` states; keys where the feature holds no number keep their range; no other key appears, and existing ranges only widen |
| GeoJson.Describe | src/geojson-helpers.js:1-29 | `describeGeoJSON` folds the features from the first; at most one geometry type per feature. `DescribeGeometryTypes`, `DescribeRanges` and `DescribeRangesOrdered` characterise its result |
| GeoJson.DescribeGeometryTypes | src/geojson-helpers.js:2-10 | `geometryTypes` holds exactly the types of features with a geometry and a truthy type, has no duplicates, and lists them in first-occurrence order |
| GeoJson.DescribeRanges | src/geojson-helpers.js:12-25 | a key has a range iff some feature holds a number under it; the range's `min` and `max` are the least and greatest such numbers, each attained; non-numbers never create, widen or narrow a range; features without geometry are still ranged |
| GeoJson.DescribeRangesOrdered | src/geojson-helpers.js:17-21 | every recorded range has `min <= max` |
| GeoJson.DescribeReorderTypes | src/geojson-helpers.js:6-10 | reordering the features leaves the set of geometry types unchanged; only their order can differ |
| GeoJson.DescribeReorderRanges | src/geojson-helpers.js:12-25 | reordering the features leaves the property ranges unchanged |
| GeoJson.DescribeDeduplicatesExample | src/geojson-helpers.js:2-10 | Point, Point, LineString, Polygon give `[Point, LineString, Polygon]` |
| GeoJson.DescribeSkipsNonNumbersExample | src/geojson-helpers.js:14-23 | heights 3, -1 and a string give the range -1 to 3 |
| LayerStyle.GetLayerType | src/geojson-helpers.js:78-92 | exact case-sensitive match: LineString/MultiLineString give `line`, Polygon/MultiPolygon give `fill`, every other string (Point, MultiPoint, unknown) gives `circle` |
| LayerStyle.DefaultPaint | src/geojson-helpers.js:46-70 | each of the six known types gets its primitive's `-color` set to `#007cbf`; any other type keeps an empty paint |
| LayerStyle.DefaultPaintTable | src/geojson-helpers.js:46-70 | the full paints: Point/MultiPoint get exactly circle-radius 5, circle-color `#007cbf`, circle-opacity 0.8; LineString/MultiLineString get exactly line-width 2, line-color `#007cbf`; Polygon/MultiPolygon get exactly fill-color `#007cbf`, fill-opacity 0.5 |
| LayerStyle.GenerateLayerStyle | src/geojson-helpers.js:33-76 | one descriptor per geometry type, same count and order; descriptor i has id `type + "-layer"`, source `geojson-data`, the layer type of `getLayerType` and the paint of the switch |
| LayerStyle.LayerIdRoundTrip | src/geojson-helpers.js:39 | stripping `-layer` from a descriptor's id gives back its geometry type |
| LayerStyle.PaintMatchesLayerType | src/geojson-helpers.js:38-70 | every paint property of a descriptor belongs to its own primitive (`circle-…`, `line-…`, `fill-…`) |
| LayerStyle.StyleIgnoresRanges | src/geojson-helpers.js:34-43 | `propertyRanges` never influences the descriptors |
| LayerStyle.StyleOfDescribe | src/geojson-helpers.js:35-43 | styling an analysed collection gives pairwise distinct ids, exactly one for each geometry type seen in the collection, with layer i for the i-th type in first-occurrence order |
| LayerStyle.PolygonStyleExample | src/geojson-helpers.js:62-68 | an analysis holding only Polygon gives one `fill` layer `Polygon-layer` with fill colour `#007cbf` and opacity 0.5 |
| LayerStyle.EmptyStyleExample | src/geojson-helpers.js:35-37 | an analysis without geometry types gives no layers |
| Zoom.ParseBreakpoints | src/geo-map.js:139-144 | without the attribute mid = 15 and far = 10; an attribute without a comma gives `mid = Number(attr)` and an undefined `far` |
| Zoom.ParseBreakpointsFields | src/geo-map.js:141-144 | for `"a,b,…"` mid = `Number(a)` and far = `Number(b)`; further fields are ignored and the order is not checked |
| Zoom.Classify | src/geo-map.js:145-157 | `far` iff zoom is below the far breakpoint; `middle` iff zoom is at least far and at most mid (comparisons with NaN are false, +Infinity is above and -Infinity below every zoom); `near` otherwise |
| Zoom.InfiniteBreakpoints | src/geo-map.js:143-157 | a far breakpoint of `Infinity` classifies every zoom `far`; breakpoints `Infinity` (mid) and `-Infinity` (far) classify every zoom `middle` |
| Zoom.ClassifyBands | src/geo-map.js:145-157 | with ordered finite breakpoints: `far` iff zoom < far, `middle` iff far <= zoom <= mid (inclusive at both ends), `near` iff zoom > mid |
| Zoom.ClassifyMonotone | src/geo-map.js:145-157 | with ordered breakpoints a larger zoom never gives a farther class |
| Zoom.InvertedBreakpointsSkipMiddle | src/geo-map.js:143-157 | with mid < far (not rejected) `middle` is never chosen and `near` is chosen iff zoom >= far |
| Zoom.ApplyProximity | src/geo-map.js:146-156 | afterwards exactly one of `far`/`middle`/`near` is present, the chosen one, and every other class is unchanged |
| Zoom.HandleZoom | src/geo-map.js:138-158 | `handleZoom` leaves exactly one proximity class, the one `Classify` chooses for the zoom (0 when no argument is given) and the parsed breakpoints, and keeps all other classes |
| Zoom.HandleZoomMissingArgument | src/geo-map.js:138 | calling `handleZoom` without an argument gives the same classes as calling it with zoom 0 |
| Zoom.HandleZoomDefaults | src/geo-map.js:139-157 | without the attribute: `far` iff zoom < 10, `middle` iff 10 <= zoom <= 15, `near` iff zoom > 15 |
| Zoom.HandleZoomForgetsPrevious | src/geo-map.js:145-157 | the result does not depend on which proximity classes were present before, so no class sticks |
| Zoom.SingleFieldBreakpointsAlwaysNear | src/geo-map.js:141-157 | a breakpoint attribute without a comma leaves `far` undefined and every zoom is classified `near` |
| JsValues.FalsyValues | src/geo-map.js:30-43 | the values that lose in `a \|\| b` are exactly undefined, null, false, 0 and the empty string |
| Config.Setting | src/geo-map.js:30-43 | a truthy URL value wins; else a non-empty attribute (as its string); else the default |
| Config.FalsyUrlValueNeverOverrides | src/geo-map.js:30-43 | a falsy URL value (0, "", false, null) resolves as if the parameter were absent |
| Config.TruthyUrlValueWins | src/geo-map.js:30-43 | a truthy URL value is the result whatever the attributes hold |
| Config.Resolve | src/geo-map.js:10-47 | fails with EngineUnavailable without the engine, else with MissingAccessToken iff the `accesstoken` attribute is absent (empty is accepted); on success the token is kept, `styleurl` defaults to `mapbox://styles/mapbox/streets-v11` with no URL override, `locked` iff the attribute is present, and latitude, longitude, zoom, bearing and pitch resolve with defaults 0, 0, 1, 0, 0 |
| Config.MapOptions | src/geo-map.js:72-81 | the option record built for the engine: style, centre, zoom, bearing, `globe` projection, pitch and interactivity. `ResolvedMapOptions` states what it receives from the resolved settings |
| Config.ResolvedMapOptions | src/geo-map.js:72-81 | the engine receives centre `[longitude, latitude]`, is interactive iff no `locked` attribute is present, and gets a style that URL values cannot change |
| Config.SearchBounds | src/geo-map.js:91-94 | no attribute gives no bounds; otherwise one number per comma-separated field (comma count + 1), with no count check |
| Config.SearchBoundsFields | src/geo-map.js:91-94 | joined fields read back in order, each trimmed and passed to `Number` |
| Strings.Split | src/geo-map.js:143 | `split(',')` gives comma count + 1 fields, none containing a comma |
| Strings.JoinSplit | src/geo-map.js:143 | joining the fields of a split gives back the string |
| Strings.SplitJoin | src/geo-map.js:143 | splitting the join of comma-free fields gives back the fields |
| Strings.Trim | src/geo-map.js:93 | the result is an infix of the input, everything removed is JavaScript white space or a line terminator, and it neither starts nor ends with one |
| Template.MatchAt | src/helpers.js:38 | a match at the front is `${` + a key of word characters + `}` |
| Template.ReplacePlaceholders | src/helpers.js:37-41 | the global regular-expression replacement as a left-to-right scan that resumes after each match. `SubstitutePlaceholder`, `CopyLiteralText`, `UnrecognisedOpenerKept`, `ValuesNotRescanned`, `EmptyDataIsIdentity` and `NoOpenerIsIdentity` characterise it |
| Template.PopulateTemplate | src/helpers.js:32-47 | the left-to-right scanner computes the placeholder replacement of the template |
| Template.MatchPlaceholder | src/helpers.js:38 | `${key}` with a word-character key is recognised as a whole, whatever follows |
| Template.SubstitutePlaceholder | src/helpers.js:38-39 | `${key}` becomes `data[key]` when the key is defined and stays verbatim otherwise; the rest is processed independently |
| Template.CopyStep | src/helpers.js:38 | where no placeholder match starts, including a lone `$` as in `$5`, exactly one character is copied and scanning continues after it |
| Template.CopyLiteralText | src/helpers.js:38 | text without `$` is copied unchanged and in order |
| Template.EmptyDataIsIdentity | src/helpers.js:38-39 | with an empty data map the output equals the template |
| Template.NoOpenerIsIdentity | src/helpers.js:38 | a template without `${` comes out unchanged |
| Template.UnrecognisedOpenerKept | src/helpers.js:38 | a `${` that starts no match is kept, together with the `$`-free text after it |
| Template.EmptyKeyKept | src/helpers.js:38 | `${}` (empty key) is left unchanged |
| Template.NonWordKeyKept | src/helpers.js:38 | `${a-b}` (non-word character in the key) is left unchanged |
| Template.UnterminatedKept | src/helpers.js:38 | the unterminated `${a` is left unchanged |
| Template.ValuesNotRescanned | src/helpers.js:38-39 | a value `${b}` for key `a` appears literally, even when `b` is defined |

## Left out

- Engine and DOM plumbing is not modelled: the `initialize` and `mapLoaded` flows, the `load`/`moveend`/`click` listeners, `flyTo`, the geocoder and geolocate controls, `showPopup`, the `MAP MOVED` and `loaded` events, `connectedCallback` and `ready`. These are I/O and calls into the engine. Only the option record the engine receives after a completed constructor is modelled.
- `showLayer`, `hideLayer` and `getLayers` are not modelled. They only log "not implemented".
- Config.Resolve: a `Failure` ends only the constructor (src/geo-map.js:15, 21), not the element's life. When `initialize` later runs (src/geo-map.js:72-81), two things can happen that the model does not state. With the engine present and no token, the engine is still constructed, with `style`, `center` coordinates, `zoom`, `bearing` and `pitch` all `undefined` and `interactive: true`. Without the engine, `initialize` rejects with a `ReferenceError`. Separately, a URL parameter with a malformed percent sequence makes `decodeURI` in the `catch` of `getURLValues` (src/helpers.js:25) throw a `URIError`. That error escapes the constructor at src/geo-map.js:31. The model's URL values are always already decoded.
- `getURLValues` is not modelled. Its result is the input map of URL values (`URLSearchParams`, `decodeURI` and `JSON.parse` are not modelled).
- `getNewID` is not modelled. It depends on `Math.random` and `Date.now`.
- The constructor's `removeAttribute` calls and its assignment of the engine's global access token are not modelled. They mutate the DOM and engine state, and no modelled read depends on them.
- `Number(...)` is an abstract parameter returning a finite number, an infinity or NaN. Its parsing rules (hex, exponents, which strings give `Infinity`) are not modelled.
- Property values are finite `real`s. A NaN or infinite property value is outside the modelled number domain. Such values can reach `describeGeoJSON`: `JSON.parse` reads an overflowing literal such as `1e999` as `Infinity`, and a caller can pass any object. An infinity would act as an extreme bound in the comparisons of src/geojson-helpers.js:17-21. A NaN would never win a comparison, so a first NaN would stay as both `min` and `max`. Neither case is stated.
- GeoJson.TypeOf: a geometry `type` that is a truthy non-string (such as a number) is not modelled; types are strings or absent.
- Keys that collide with `Object.prototype` members (`toString`, `__proto__`) in `propertyRanges` and in the template data are not modelled. All keys are plain.
- Zoom.HandleZoom: the zoom is a `real`. The string-to-number coercion when the initial `this.zoom` is an attribute string is not modelled.
- Template.PopulateTemplate: data values are strings. `String(...)` conversion of other values is not modelled, and the template is its `innerHTML` as a plain string.

=== FILE: config.dfy ===
/**
 * The settings the `geo-map` element's constructor resolves from its
 * attributes and the page's URL parameters, the options it later hands to the
 * map engine, and the geocoder's `search-bounds` list.
 */
module Config {
  import opened Wrappers
  import opened JsValues
  import Strings

  /**
   * Why the constructor stops early: it logs and returns, which ends only the
   * constructor, not the element.
   */
  datatype ConfigError = EngineUnavailable | MissingAccessToken

  /**
   * The fields the constructor sets. Position, zoom, bearing and pitch stay
   * JavaScript values: an attribute string, a URL value or a numeric default,
   * never parsed.
   */
  datatype Settings = Settings(
    accessToken: string,
    styleUrl: string,
    latitude: JsVal,
    longitude: JsVal,
    zoom: JsVal,
    bearing: JsVal,
    pitch: JsVal,
    locked: bool,
    slideshow: Option<string>)

  const DefaultStyleUrl: string := "mapbox://styles/mapbox/streets-v11"

  /** `getAttribute(name)`: the attribute's string, or `null` when the attribute is absent. */
  function GetAttribute(attrs: map<string, string>, name: string): JsVal
  {
    if name in attrs then Str(attrs[name]) else Null
  }

  /** `getURLValues()[name]`: the decoded URL value, or `undefined`. */
  function UrlValue(url: map<string, JsVal>, name: string): JsVal
  {
    if name in url then url[name] else Undefined
  }

  /**
   * `this.x = getAttribute(x) || d; this.x = getURLValues().x || this.x`:
   * a truthy URL value wins, else a non-empty attribute, else the default.
   */
  function Setting(attrs: map<string, string>, url: map<string, JsVal>, name: string, default: real): (v: JsVal)
    ensures Truthy(UrlValue(url, name)) ==> v == url[name]
    ensures !Truthy(UrlValue(url, name)) && name in attrs && attrs[name] != "" ==> v == Str(attrs[name])
    ensures !Truthy(UrlValue(url, name)) && (name !in attrs || attrs[name] == "") ==> v == Num(default)
  {
    Or(UrlValue(url, name), Or(GetAttribute(attrs, name), Num(default)))
  }

  /**
   * The constructor. `engineAvailable` says whether the map engine's global is
   * defined; the check for it and then the one for a missing `accesstoken`
   * attribute abort before any other setting is resolved. An empty token is
   * accepted: only absence aborts.
   */
  function Resolve(engineAvailable: bool, attrs: map<string, string>, url: map<string, JsVal>): (r: Result<Settings, ConfigError>)
    ensures !engineAvailable ==> r == Failure(EngineUnavailable)
    ensures engineAvailable && "accesstoken" !in attrs ==> r == Failure(MissingAccessToken)
    ensures r.Success? <==> engineAvailable && "accesstoken" in attrs
    ensures r.Success? ==> r.value.accessToken == attrs["accesstoken"]
    ensures r.Success? ==>
              r.value.styleUrl == if "styleurl" in attrs && attrs["styleurl"] != "" then attrs["styleurl"] else DefaultStyleUrl
    ensures r.Success? ==> (r.value.locked <==> "locked" in attrs)
    ensures r.Success? ==> r.value.latitude == Setting(attrs, url, "latitude", 0.0)
    ensures r.Success? ==> r.value.longitude == Setting(attrs, url, "longitude", 0.0)
    ensures r.Success? ==> r.value.zoom == Setting(attrs, url, "zoom", 1.0)
    ensures r.Success? ==> r.value.bearing == Setting(attrs, url, "bearing", 0.0)
    ensures r.Success? ==> r.value.pitch == Setting(attrs, url, "pitch", 0.0)
  {
    if !engineAvailable then Failure(EngineUnavailable)
    else if "accesstoken" !in attrs then Failure(MissingAccessToken)
    else
      var style := Or(GetAttribute(attrs, "styleurl"), Str(DefaultStyleUrl));
      Success(Settings(
        accessToken := attrs["accesstoken"],
        styleUrl := style.s,
        latitude := Setting(attrs, url, "latitude", 0.0),
        longitude := Setting(attrs, url, "longitude", 0.0),
        zoom := Setting(attrs, url, "zoom", 1.0),
        bearing := Setting(attrs, url, "bearing", 0.0),
        pitch := Setting(attrs, url, "pitch", 0.0),
        locked := GetAttribute(attrs, "locked") != Null,
        slideshow := if "slideshow" in attrs then Some(attrs["slideshow"]) else None))
  }

  /** A falsy URL value (`0`, `""`, `false`, `null`) resolves as if the parameter were absent. */
  lemma FalsyUrlValueNeverOverrides(attrs: map<string, string>, url: map<string, JsVal>, name: string, default: real, v: JsVal)
    requires !Truthy(v)
    ensures Setting(attrs, url[name := v], name, default) == Setting(attrs, url - {name}, name, default)
  {
  }

  /** A truthy URL value wins whatever the attributes say. */
  lemma TruthyUrlValueWins(attrs1: map<string, string>, attrs2: map<string, string>, url: map<string, JsVal>, name: string, default: real)
    requires name in url && Truthy(url[name])
    ensures Setting(attrs1, url, name, default) == Setting(attrs2, url, name, default) == url[name]
  {
  }

  /** The options `initialize` passes to the map engine's constructor. */
  datatype EngineOptions = EngineOptions(
    style: string,
    center: seq<JsVal>,
    zoom: JsVal,
    bearing: JsVal,
    projection: string,
    pitch: JsVal,
    interactive: bool)

  function MapOptions(s: Settings): EngineOptions
  {
    EngineOptions(s.styleUrl, [s.longitude, s.latitude], s.zoom, s.bearing, "globe", s.pitch, !s.locked)
  }

  /**
   * From the element to the engine: the centre is `[longitude, latitude]`,
   * the map is interactive exactly when no `locked` attribute is present
   * (even an empty one locks it), and the style takes no URL override.
   */
  lemma ResolvedMapOptions(attrs: map<string, string>, url: map<string, JsVal>)
    requires "accesstoken" in attrs
    ensures Resolve(true, attrs, url).Success?
    ensures MapOptions(Resolve(true, attrs, url).value).center ==
              [Setting(attrs, url, "longitude", 0.0), Setting(attrs, url, "latitude", 0.0)]
    ensures MapOptions(Resolve(true, attrs, url).value).interactive <==> "locked" !in attrs
    ensures MapOptions(Resolve(true, attrs, url).value).style == MapOptions(Resolve(true, attrs, map[]).value).style
  {
  }

  /**
   * `initializeGeoCoder`'s bounding box: the `search-bounds` attribute split at
   * commas, each field trimmed and passed to `Number` (`toNumber`); the number
   * of fields is not checked.
   */
  function SearchBounds(attr: Option<string>, toNumber: string -> JsNumber): (bbox: Option<seq<JsNumber>>)
    ensures bbox.None? <==> attr.None?
    ensures bbox.Some? ==> |bbox.value| == Strings.Count(attr.value, ',') + 1
  {
    match attr
    case None => None
    case Some(s) =>
      var fields := Strings.Split(s, ',');
      Some(seq(|fields|, i requires 0 <= i < |fields| => toNumber(Strings.Trim(fields[i]))))
  }

  /** The bounds read back, in order, the numbers written between the commas, however many there are. */
  lemma SearchBoundsFields(fields: seq<string>, toNumber: string -> JsNumber)
    requires |fields| >= 1
    requires forall i :: 0 <= i < |fields| ==> ',' !in fields[i]
    ensures SearchBounds(Some(Strings.Join(fields, ',')), toNumber).Some?
    ensures |SearchBounds(Some(Strings.Join(fields, ',')), toNumber).value| == |fields|
    ensures forall i :: 0 <= i < |fields| ==>
              SearchBounds(Some(Strings.Join(fields, ',')), toNumber).value[i] == toNumber(Strings.Trim(fields[i]))
  {
    Strings.SplitJoin(fields, ',');
  }
}

=== FILE: geojson.dfy ===
/**
 * `describeGeoJSON`: one pass over a feature collection that records the
 * geometry types in first-occurrence order (a JavaScript `Set`) and a running
 * `{min, max}` for every property key that ever holds a number.
 */
module GeoJson {
  import opened Wrappers

  /** A property value: a JavaScript `number`, or anything else. */
  datatype PropVal = Number(n: real) | NonNumber

  /** A feature's `geometry` object; `kind` is its `type` member, absent when missing. */
  datatype Geometry = Geometry(kind: Option<string>)

  /** A GeoJSON feature; `geometry` and `properties` may be absent (or `null`). */
  datatype Feature = Feature(geometry: Option<Geometry>, properties: Option<map<string, PropVal>>)

  /** The running extent of one numeric property. */
  datatype Range = Range(min: real, max: real)

  /** The result of `describeGeoJSON`. */
  datatype Analysis = Analysis(geometryTypes: seq<string>, propertyRanges: map<string, Range>)

  /** The geometry type a feature contributes: present only when the geometry and a truthy (non-empty) `type` are. */
  function TypeOf(f: Feature): (t: Option<string>)
    ensures t.Some? <==> f.geometry.Some? && f.geometry.value.kind.Some? && f.geometry.value.kind.value != ""
    ensures t.Some? ==> t.value == f.geometry.value.kind.value
  {
    match f.geometry
    case None => None
    case Some(g) =>
      match g.kind
      case None => None
      case Some(k) => if k != "" then Some(k) else None
  }

  /** Feature `f` holds the number `v` under property `key`. */
  predicate HasNumber(f: Feature, key: string, v: real)
  {
    f.properties.Some? && key in f.properties.value && f.properties.value[key] == Number(v)
  }

  /** `Set.prototype.add`: appends `t` unless it is already present. */
  function AddType(types: seq<string>, f: Feature): seq<string>
  {
    match TypeOf(f)
    case None => types
    case Some(t) => if t in types then types else types + [t]
  }

  /** The range for `key` after observing the number `v`; the first observation gives `min = max = v`. */
  function Observe(ranges: map<string, Range>, key: string, v: real): (r: Range)
    ensures key !in ranges ==> r == Range(v, v)
    ensures key in ranges ==> r.min <= ranges[key].min && r.min <= v && (r.min == ranges[key].min || r.min == v)
    ensures key in ranges ==> r.max >= ranges[key].max && r.max >= v && (r.max == ranges[key].max || r.max == v)
  {
    if key !in ranges then Range(v, v)
    else
      var prev := ranges[key];
      Range(if v < prev.min then v else prev.min, if v > prev.max then v else prev.max)
  }

  /** The keys under which a property map holds a number. */
  function NumericKeys(props: map<string, PropVal>): set<string>
  {
    set k | k in props && props[k].Number?
  }

  /** The inner loop over `Object.keys(feature.properties)`; its result does not depend on key order. */
  function AddRanges(ranges: map<string, Range>, f: Feature): (r: map<string, Range>)
    ensures ranges.Keys <= r.Keys
    ensures forall k :: k in r && k !in ranges ==> HasNumber(f, k, r[k].min) && r[k].min == r[k].max
    ensures forall k :: k in ranges ==> r[k].min <= ranges[k].min && ranges[k].max <= r[k].max
    ensures forall k, v :: HasNumber(f, k, v) ==> k in r && r[k] == Observe(ranges, k, v)
    ensures forall k :: k in ranges && (forall v :: !HasNumber(f, k, v)) ==> r[k] == ranges[k]
    ensures forall k :: k in r ==> k in ranges || exists v :: HasNumber(f, k, v)
  {
    match f.properties
    case None => ranges
    case Some(props) =>
      var r := map k | k in ranges.Keys + NumericKeys(props) ::
        if k in props && props[k].Number? then Observe(ranges, k, props[k].n) else ranges[k];
      assert forall k :: k in props && props[k].Number? ==> HasNumber(f, k, props[k].n);
      r
  }

  /** The body of the outer `forEach`: one feature folded into the analysis so far. */
  function Step(a: Analysis, f: Feature): Analysis
  {
    Analysis(AddType(a.geometryTypes, f), AddRanges(a.propertyRanges, f))
  }

  /** `describeGeoJSON(geoJSON)` on `geoJSON.features`: a left fold of `Step` from the empty analysis. */
  function Describe(features: seq<Feature>): (a: Analysis)
    ensures |a.geometryTypes| <= |features|
    decreases |features|
  {
    if |features| == 0 then Analysis([], map[])
    else Step(Describe(features[..|features| - 1]), features[|features| - 1])
  }

  // ---------------------------------------------------------------------------
  // Reference definitions of what the analysis should contain.

  /** Some feature of the collection contributes geometry type `t`. */
  ghost predicate TypeSeen(features: seq<Feature>, t: string)
  {
    exists q :: 0 <= q < |features| && TypeOf(features[q]) == Some(t)
  }

  ghost predicate NoDuplicates(s: seq<string>)
  {
    forall i, j :: 0 <= i < j < |s| ==> s[i] != s[j]
  }

  /** Whenever `types[j]` occurs in the collection, every earlier entry `types[i]` occurred before it. */
  ghost predicate FirstOccurrenceOrder(features: seq<Feature>, types: seq<string>)
  {
    forall i, j, q :: 0 <= i < j < |types| && 0 <= q < |features| && TypeOf(features[q]) == Some(types[j]) ==>
      exists p :: 0 <= p < q && TypeOf(features[p]) == Some(types[i])
  }

  /** Some feature of the collection holds a number under `key`. */
  ghost predicate NumberSeen(features: seq<Feature>, key: string)
  {
    exists f, v :: f in features && HasNumber(f, key, v)
  }

  /** `r` is exactly the least and greatest number held under `key` in the collection. */
  ghost predicate IsRangeOf(features: seq<Feature>, key: string, r: Range)
  {
    && (exists f :: f in features && HasNumber(f, key, r.min))
    && (exists f :: f in features && HasNumber(f, key, r.max))
    && (forall f, v :: f in features && HasNumber(f, key, v) ==> r.min <= v <= r.max)
  }

  // ---------------------------------------------------------------------------
  // Properties of the fold.

  lemma LastSplit(features: seq<Feature>)
    requires |features| > 0
    ensures features == features[..|features| - 1] + [features[|features| - 1]]
  {
  }

  /**
   * The geometry types are exactly those of features with a geometry and a
   * truthy `type`, without duplicates, in first-occurrence order.
   */
  lemma {:induction false} DescribeGeometryTypes(features: seq<Feature>)
    ensures NoDuplicates(Describe(features).geometryTypes)
    ensures forall t :: t in Describe(features).geometryTypes <==> TypeSeen(features, t)
    ensures FirstOccurrenceOrder(features, Describe(features).geometryTypes)
    decreases |features|
  {
    if |features| > 0 {
      var n := |features| - 1;
      var earlier := Describe(features[..n]).geometryTypes;
      DescribeGeometryTypes(features[..n]);
      assert Describe(features).geometryTypes == AddType(earlier, features[n]);
      TypesStepMembership(features[..n], features[n], earlier);
      TypesStepOrder(features[..n], features[n], earlier);
      LastSplit(features);
    }
  }

  /** Adding one feature's type keeps the list exactly the set of types seen, without duplicates. */
  lemma TypesStepMembership(pre: seq<Feature>, f: Feature, earlier: seq<string>)
    requires NoDuplicates(earlier)
    requires forall t :: t in earlier <==> TypeSeen(pre, t)
    ensures NoDuplicates(AddType(earlier, f))
    ensures forall t :: t in AddType(earlier, f) <==> TypeSeen(pre + [f], t)
  {
    var features := pre + [f];
    var types := AddType(earlier, f);
    forall t
      ensures t in types <==> TypeSeen(features, t)
    {
      if TypeSeen(pre, t) {
        var q :| 0 <= q < |pre| && TypeOf(pre[q]) == Some(t);
        assert TypeOf(features[q]) == Some(t);
      }
      if TypeSeen(features, t) {
        var q :| 0 <= q < |features| && TypeOf(features[q]) == Some(t);
        if q < |pre| {
          assert TypeOf(pre[q]) == Some(t);
        }
      }
      if TypeOf(f) == Some(t) {
        assert TypeOf(features[|pre|]) == Some(t);
      }
    }
  }

  /** Adding one feature's type keeps the list in first-occurrence order. */
  lemma TypesStepOrder(pre: seq<Feature>, f: Feature, earlier: seq<string>)
    requires forall t :: t in earlier <==> TypeSeen(pre, t)
    requires FirstOccurrenceOrder(pre, earlier)
    ensures FirstOccurrenceOrder(pre + [f], AddType(earlier, f))
  {
    var features := pre + [f];
    var types := AddType(earlier, f);
    var n := |pre|;
    forall i, j, q | 0 <= i < j < |types| && 0 <= q < |features| && TypeOf(features[q]) == Some(types[j])
      ensures exists p :: 0 <= p < q && TypeOf(features[p]) == Some(types[i])
    {
      assert types == earlier || types == earlier + [types[|types| - 1]];
      if j < |earlier| {
        // types[j] was seen in the prefix, at some q' <= q; the earlier entry precedes that sighting
        assert types[i] == earlier[i] && types[j] == earlier[j];
        var q': int;
        if q < n {
          q' := q;
          assert TypeOf(pre[q']) == Some(earlier[j]);
        } else {
          assert earlier[j] in earlier;
          q' :| 0 <= q' < |pre| && TypeOf(pre[q']) == Some(earlier[j]);
        }
        var p :| 0 <= p < q' && TypeOf(pre[p]) == Some(earlier[i]);
        assert TypeOf(features[p]) == Some(types[i]);
      } else {
        // types[j] is the type of the last feature, new to the prefix
        assert types == earlier + [types[j]] && TypeOf(f) == Some(types[j]);
        assert !TypeSeen(pre, types[j]);
        assert earlier[i] in earlier;
        var p :| 0 <= p < |pre| && TypeOf(pre[p]) == Some(earlier[i]);
        assert TypeOf(features[p]) == Some(types[i]);
      }
    }
  }

  /** Observing one more feature's properties keeps the keys exactly those with a number. */
  lemma RangesStepKeys(pre: seq<Feature>, f: Feature, ranges: map<string, Range>)
    requires forall k :: k in ranges <==> NumberSeen(pre, k)
    ensures forall k :: k in AddRanges(ranges, f) <==> NumberSeen(pre + [f], k)
  {
    var features := pre + [f];
    var ranges' := AddRanges(ranges, f);
    forall k
      ensures k in ranges' <==> NumberSeen(features, k)
    {
      if NumberSeen(features, k) {
        var g, v :| g in features && HasNumber(g, k, v);
        if g != f {
          assert g in pre;
          assert NumberSeen(pre, k);
        }
      }
      if k in ranges' && k !in ranges {
        assert HasNumber(f, k, f.properties.value[k].n);
      }
      if k in ranges {
        var g, v :| g in pre && HasNumber(g, k, v);
        assert g in features;
      }
    }
  }

  /** Observing one more feature's properties keeps every range the exact extent of the numbers seen. */
  lemma RangesStepValues(pre: seq<Feature>, f: Feature, ranges: map<string, Range>)
    requires forall k :: k in ranges <==> NumberSeen(pre, k)
    requires forall k :: k in ranges ==> IsRangeOf(pre, k, ranges[k])
    ensures forall k :: k in AddRanges(ranges, f) ==> IsRangeOf(pre + [f], k, AddRanges(ranges, f)[k])
  {
    var features := pre + [f];
    var ranges' := AddRanges(ranges, f);
    forall k | k in ranges'
      ensures IsRangeOf(features, k, ranges'[k])
    {
      var r := ranges'[k];
      if f.properties.Some? && k in f.properties.value && f.properties.value[k].Number? {
        var v := f.properties.value[k].n;
        assert HasNumber(f, k, v);
        assert r == Observe(ranges, k, v);
        if k in ranges {
          var g1 :| g1 in pre && HasNumber(g1, k, ranges[k].min);
          var g2 :| g2 in pre && HasNumber(g2, k, ranges[k].max);
          assert g1 in features && g2 in features;
        }
        forall g, w | g in features && HasNumber(g, k, w)
          ensures r.min <= w <= r.max
        {
          if g != f {
            assert g in pre && NumberSeen(pre, k);
          }
        }
      } else {
        assert r == ranges[k];
        var g1 :| g1 in pre && HasNumber(g1, k, r.min);
        var g2 :| g2 in pre && HasNumber(g2, k, r.max);
        assert g1 in features && g2 in features;
        forall g, w | g in features && HasNumber(g, k, w)
          ensures r.min <= w <= r.max
        {
          if g != f {
            assert g in pre;
          }
        }
      }
    }
  }

  /**
   * A key has a range exactly when some feature holds a number under it, and
   * that range is the least and greatest such number; non-numbers never
   * create, widen or narrow a range.
   */
  lemma {:induction false} DescribeRanges(features: seq<Feature>)
    ensures forall k :: k in Describe(features).propertyRanges <==> NumberSeen(features, k)
    ensures forall k :: k in Describe(features).propertyRanges ==>
              IsRangeOf(features, k, Describe(features).propertyRanges[k])
    decreases |features|
  {
    if |features| > 0 {
      var n := |features| - 1;
      DescribeRanges(features[..n]);
      RangesStepKeys(features[..n], features[n], Describe(features[..n]).propertyRanges);
      RangesStepValues(features[..n], features[n], Describe(features[..n]).propertyRanges);
      LastSplit(features);
    }
  }

  /** Every recorded range has `min <= max`. */
  lemma DescribeRangesOrdered(features: seq<Feature>, key: string)
    requires key in Describe(features).propertyRanges
    ensures Describe(features).propertyRanges[key].min <= Describe(features).propertyRanges[key].max
  {
  }

  /** Two feature lists with the same elements, counted with multiplicity, contain the same features. */
  lemma SameElements(features: seq<Feature>, others: seq<Feature>)
    requires multiset(features) == multiset(others)
    ensures forall g :: g in features <==> g in others
  {
    forall g
      ensures g in features <==> g in others
    {
      assert g in features <==> g in multiset(features);
      assert g in others <==> g in multiset(others);
    }
  }

  /** Reordering the features can change the order of `geometryTypes`, but not which types it holds. */
  lemma DescribeReorderTypes(features: seq<Feature>, others: seq<Feature>)
    requires multiset(features) == multiset(others)
    ensures forall t :: t in Describe(features).geometryTypes <==> t in Describe(others).geometryTypes
  {
    DescribeGeometryTypes(features);
    DescribeGeometryTypes(others);
    SameElements(features, others);
    forall t
      ensures TypeSeen(features, t) <==> TypeSeen(others, t)
    {
      if TypeSeen(features, t) {
        var q :| 0 <= q < |features| && TypeOf(features[q]) == Some(t);
        assert features[q] in others;
        var q' :| 0 <= q' < |others| && others[q'] == features[q];
      }
      if TypeSeen(others, t) {
        var q :| 0 <= q < |others| && TypeOf(others[q]) == Some(t);
        assert others[q] in features;
        var q' :| 0 <= q' < |features| && features[q'] == others[q];
      }
    }
  }

  /** Reordering the features leaves the property ranges unchanged. */
  lemma DescribeReorderRanges(features: seq<Feature>, others: seq<Feature>)
    requires multiset(features) == multiset(others)
    ensures Describe(features).propertyRanges == Describe(others).propertyRanges
  {
    DescribeRanges(features);
    DescribeRanges(others);
    SameElements(features, others);
    var r1 := Describe(features).propertyRanges;
    var r2 := Describe(others).propertyRanges;
    forall k
      ensures k in r1 <==> k in r2
    {
      if NumberSeen(features, k) {
        var g, v :| g in features && HasNumber(g, k, v);
        assert g in others;
      }
      if NumberSeen(others, k) {
        var g, v :| g in others && HasNumber(g, k, v);
        assert g in features;
      }
    }
    forall k | k in r1
      ensures r1[k] == r2[k]
    {
      var g1 :| g1 in features && HasNumber(g1, k, r1[k].min);
      var g2 :| g2 in others && HasNumber(g2, k, r2[k].min);
      var g3 :| g3 in features && HasNumber(g3, k, r1[k].max);
      var g4 :| g4 in others && HasNumber(g4, k, r2[k].max);
      assert g1 in others && g3 in others && g2 in features && g4 in features;
    }
  }

  // ---------------------------------------------------------------------------
  // Worked examples.

  function TypedFeature(kind: string): Feature
  {
    Feature(Some(Geometry(Some(kind))), None)
  }

  function HeightFeature(v: PropVal): Feature
  {
    Feature(None, Some(map["height" := v]))
  }

  /** Types Point, Point, LineString, Polygon give three types in first-occurrence order. */
  lemma DescribeDeduplicatesExample()
    ensures Describe([TypedFeature("Point"), TypedFeature("Point"), TypedFeature("LineString"), TypedFeature("Polygon")]).geometryTypes
              == ["Point", "LineString", "Polygon"]
  {
    var fs := [TypedFeature("Point"), TypedFeature("Point"), TypedFeature("LineString"), TypedFeature("Polygon")];
    assert fs[..1] == [TypedFeature("Point")];
    assert fs[..2] == fs[..1] + [TypedFeature("Point")];
    assert fs[..3] == fs[..2] + [TypedFeature("LineString")];
    assert Describe(fs[..1]).geometryTypes == ["Point"];
    assert Describe(fs[..2]).geometryTypes == ["Point"];
    assert Describe(fs[..3]).geometryTypes == ["Point", "LineString"];
  }

  /** Heights 3, -1 and "tall" give the range -1 to 3; the string is skipped. */
  lemma DescribeSkipsNonNumbersExample()
    ensures Describe([HeightFeature(Number(3.0)), HeightFeature(Number(-1.0)), HeightFeature(NonNumber)]).propertyRanges
              == map["height" := Range(-1.0, 3.0)]
  {
    var fs := [HeightFeature(Number(3.0)), HeightFeature(Number(-1.0)), HeightFeature(NonNumber)];
    assert fs[..1] == [HeightFeature(Number(3.0))];
    assert fs[..2] == fs[..1] + [HeightFeature(Number(-1.0))];
    assert NumericKeys(map["height" := Number(3.0)]) == {"height"};
    assert NumericKeys(map["height" := NonNumber]) == {};
    assert Describe(fs[..1]).propertyRanges == map["height" := Range(3.0, 3.0)];
    assert Describe(fs[..2]).propertyRanges == map["height" := Range(-1.0, 3.0)];
  }
}

=== FILE: jsvalues.dfy ===
/**
 * The slice of JavaScript's value semantics the component relies on:
 * the values a URL parameter can decode to, the truthiness test behind `||`,
 * and numbers that may be infinite or NaN.
 */
module JsValues {

  /**
   * A JavaScript value as produced by `JSON.parse` or `decodeURI` on a URL
   * parameter, by `getAttribute`, or written as a literal default.
   * Arrays and objects are `Composite`; they are always truthy. Numbers are
   * finite: the `Infinity` that `JSON.parse("1e999")` yields is not modelled
   * (it is truthy, so it would resolve like any non-zero number).
   */
  datatype JsVal =
    | Undefined
    | Null
    | Bool(b: bool)
    | Num(n: real)
    | Str(s: string)
    | Composite

  /** JavaScript's ToBoolean; NaN is not a `JsVal` number (see JsNumber). */
  predicate Truthy(v: JsVal)
  {
    match v
    case Undefined => false
    case Null => false
    case Bool(b) => b
    case Num(n) => n != 0.0
    case Str(s) => s != ""
    case Composite => true
  }

  /** The falsy values, listed: `undefined`, `null`, `false`, `0` and `""`. */
  lemma FalsyValues(v: JsVal)
    ensures !Truthy(v) <==> v in {Undefined, Null, Bool(false), Num(0.0), Str("")}
  {
  }

  /** JavaScript's `a || b`: the left operand when truthy, otherwise the right one. */
  function Or(a: JsVal, b: JsVal): (r: JsVal)
    ensures Truthy(a) ==> r == a
    ensures !Truthy(a) ==> r == b
  {
    if Truthy(a) then a else b
  }

  /**
   * A JavaScript number produced by `Number(...)`: finite, an infinity
   * (`Number("Infinity")`, `Number("1e999")`), or NaN (which also stands for
   * `undefined` in comparisons).
   */
  datatype JsNumber = Finite(value: real) | PosInfinity | NegInfinity | NaN

  /** `x < n` in JavaScript for a finite `x`: always true below +Infinity, false whenever `n` is NaN. */
  predicate Below(x: real, n: JsNumber)
  {
    match n
    case Finite(v) => x < v
    case PosInfinity => true
    case NegInfinity => false
    case NaN => false
  }

  /** `x >= n` in JavaScript for a finite `x`: always true above -Infinity, false whenever `n` is NaN. */
  predicate AtLeast(x: real, n: JsNumber)
  {
    match n
    case Finite(v) => x >= v
    case PosInfinity => false
    case NegInfinity => true
    case NaN => false
  }

  /** `x <= n` in JavaScript for a finite `x`: always true below +Infinity, false whenever `n` is NaN. */
  predicate AtMost(x: real, n: JsNumber)
  {
    match n
    case Finite(v) => x <= v
    case PosInfinity => true
    case NegInfinity => false
    case NaN => false
  }
}

=== FILE: layer_style.dfy ===
/**
 * `generateLayerStyle` and `getLayerType`: one rendering-layer descriptor per
 * geometry type of an analysis, in the analysis's order, with a fixed source
 * and a fixed paint per geometry type.
 */
module LayerStyle {
  import opened GeoJson

  /** The rendering primitive of a layer (the descriptor's `type`). */
  datatype LayerType = Circle | Line | Fill

  /** A paint property value: a number or a colour string. */
  datatype PaintValue = Amount(x: real) | Color(c: string)

  /** A layer descriptor as handed to the rendering engine's `addLayer`. */
  datatype Layer = Layer(id: string, layerType: LayerType, source: string, paint: map<string, PaintValue>)

  /** The logical name of the shared GeoJSON source every layer draws from. */
  const SourceId: string := "geojson-data"

  /** The suffix that turns a geometry type into a layer id. */
  const IdSuffix: string := "-layer"

  const DefaultColor: string := "#007cbf"

  /** The name the rendering engine uses for a primitive; it prefixes that primitive's paint properties. */
  function LayerTypeName(t: LayerType): string
  {
    match t
    case Circle => "circle"
    case Line => "line"
    case Fill => "fill"
  }

  /** `getLayerType`: exact, case-sensitive match; any other string falls back to a circle layer. */
  function GetLayerType(geometryType: string): (t: LayerType)
    ensures t == Line <==> geometryType in {"LineString", "MultiLineString"}
    ensures t == Fill <==> geometryType in {"Polygon", "MultiPolygon"}
    ensures t == Circle <==> geometryType !in {"LineString", "MultiLineString", "Polygon", "MultiPolygon"}
  {
    match geometryType
    case "Point" => Circle
    case "MultiPoint" => Circle
    case "LineString" => Line
    case "MultiLineString" => Line
    case "Polygon" => Fill
    case "MultiPolygon" => Fill
    case _ => Circle
  }

  /** The six geometry types the paint `switch` knows. */
  const KnownTypes: set<string> := {"Point", "MultiPoint", "LineString", "MultiLineString", "Polygon", "MultiPolygon"}

  /** The paint the `switch` in `generateLayerStyle` assigns; unknown types keep the empty paint. */
  function DefaultPaint(geometryType: string): (paint: map<string, PaintValue>)
    ensures geometryType in KnownTypes ==>
              LayerTypeName(GetLayerType(geometryType)) + "-color" in paint
              && paint[LayerTypeName(GetLayerType(geometryType)) + "-color"] == Color(DefaultColor)
    ensures geometryType !in KnownTypes ==> paint == map[]
  {
    ColorKeys();
    match geometryType
    case "Point" => CirclePaint()
    case "MultiPoint" => CirclePaint()
    case "LineString" => LinePaint()
    case "MultiLineString" => LinePaint()
    case "Polygon" => FillPaint()
    case "MultiPolygon" => FillPaint()
    case _ => map[]
  }

  /**
   * The full paint table: radius 5, opacity 0.8 for points; width 2 for
   * lines; opacity 0.5 for polygons; each with the default colour and no
   * other property.
   */
  lemma DefaultPaintTable(geometryType: string)
    ensures geometryType in {"Point", "MultiPoint"} ==>
              DefaultPaint(geometryType) == map["circle-radius" := Amount(5.0), "circle-color" := Color(DefaultColor), "circle-opacity" := Amount(0.8)]
    ensures geometryType in {"LineString", "MultiLineString"} ==>
              DefaultPaint(geometryType) == map["line-color" := Color(DefaultColor), "line-width" := Amount(2.0)]
    ensures geometryType in {"Polygon", "MultiPolygon"} ==>
              DefaultPaint(geometryType) == map["fill-color" := Color(DefaultColor), "fill-opacity" := Amount(0.5)]
  {
  }

  /** The colour key of each primitive is its name followed by `-color`. */
  lemma ColorKeys()
    ensures LayerTypeName(Circle) + "-color" == "circle-color"
    ensures LayerTypeName(Line) + "-color" == "line-color"
    ensures LayerTypeName(Fill) + "-color" == "fill-color"
  {
  }

  function CirclePaint(): map<string, PaintValue>
  {
    map["circle-radius" := Amount(5.0), "circle-color" := Color(DefaultColor), "circle-opacity" := Amount(0.8)]
  }

  function LinePaint(): map<string, PaintValue>
  {
    map["line-width" := Amount(2.0), "line-color" := Color(DefaultColor)]
  }

  function FillPaint(): map<string, PaintValue>
  {
    map["fill-color" := Color(DefaultColor), "fill-opacity" := Amount(0.5)]
  }

  /** The descriptor built for one geometry type in the body of the `forEach`. */
  function StyleFor(geometryType: string): Layer
  {
    Layer(geometryType + IdSuffix, GetLayerType(geometryType), SourceId, DefaultPaint(geometryType))
  }

  /**
   * `generateLayerStyle(analysis)`: one descriptor per geometry type, in order;
   * the property ranges are not consulted.
   */
  function GenerateLayerStyle(analysis: Analysis): (layers: seq<Layer>)
    ensures |layers| == |analysis.geometryTypes|
    ensures forall i :: 0 <= i < |layers| ==>
              && layers[i].id == analysis.geometryTypes[i] + IdSuffix
              && layers[i].source == SourceId
              && layers[i].layerType == GetLayerType(analysis.geometryTypes[i])
              && layers[i].paint == DefaultPaint(analysis.geometryTypes[i])
  {
    seq(|analysis.geometryTypes|, i requires 0 <= i < |analysis.geometryTypes| => StyleFor(analysis.geometryTypes[i]))
  }

  /** The geometry type a layer id was made from: the inverse of appending the suffix. */
  function GeometryTypeOfId(id: string): string
    requires |id| >= |IdSuffix|
  {
    id[..|id| - |IdSuffix|]
  }

  /** A layer's id determines its geometry type, so distinct types give distinct ids. */
  lemma LayerIdRoundTrip(geometryType: string)
    ensures GeometryTypeOfId(StyleFor(geometryType).id) == geometryType
    ensures StyleFor(geometryType).id[|geometryType|..] == IdSuffix
  {
  }

  /** Every paint property of a descriptor belongs to the descriptor's own primitive (`circle-…`, `line-…`, `fill-…`). */
  lemma PaintMatchesLayerType(geometryType: string)
    ensures forall key :: key in StyleFor(geometryType).paint ==>
              LayerTypeName(StyleFor(geometryType).layerType) + "-" <= key
  {
  }

  /** The ranges never influence the descriptors: analyses with the same types give the same layers. */
  lemma StyleIgnoresRanges(a: Analysis, b: Analysis)
    requires a.geometryTypes == b.geometryTypes
    ensures GenerateLayerStyle(a) == GenerateLayerStyle(b)
  {
  }

  /**
   * Styling an analysed collection yields pairwise distinct layer ids, one per
   * geometry type seen in the collection, in first-occurrence order: layer
   * `i` is the `i`-th type of the analysis.
   */
  lemma StyleOfDescribe(features: seq<Feature>)
    ensures |GenerateLayerStyle(Describe(features))| == |Describe(features).geometryTypes|
    ensures forall i :: 0 <= i < |GenerateLayerStyle(Describe(features))| ==>
              GeometryTypeOfId(GenerateLayerStyle(Describe(features))[i].id) == Describe(features).geometryTypes[i]
    ensures forall i, j :: 0 <= i < j < |GenerateLayerStyle(Describe(features))| ==>
              GenerateLayerStyle(Describe(features))[i].id != GenerateLayerStyle(Describe(features))[j].id
    ensures forall i :: 0 <= i < |GenerateLayerStyle(Describe(features))| ==>
              TypeSeen(features, GeometryTypeOfId(GenerateLayerStyle(Describe(features))[i].id))
    ensures forall t :: TypeSeen(features, t) ==>
              exists i :: 0 <= i < |GenerateLayerStyle(Describe(features))|
                          && GenerateLayerStyle(Describe(features))[i].id == t + IdSuffix
  {
    var types := Describe(features).geometryTypes;
    var layers := GenerateLayerStyle(Describe(features));
    DescribeGeometryTypes(features);
    forall i | 0 <= i < |layers|
      ensures GeometryTypeOfId(layers[i].id) == types[i]
    {
      LayerIdRoundTrip(types[i]);
    }
    forall i, j | 0 <= i < j < |layers|
      ensures layers[i].id != layers[j].id
    {
      assert GeometryTypeOfId(layers[i].id) != GeometryTypeOfId(layers[j].id);
    }
    forall i | 0 <= i < |layers|
      ensures TypeSeen(features, GeometryTypeOfId(layers[i].id))
    {
      assert types[i] in types;
    }
    forall t | TypeSeen(features, t)
      ensures exists i :: 0 <= i < |layers| && layers[i].id == t + IdSuffix
    {
      assert t in types;
      var i :| 0 <= i < |types| && types[i] == t;
      assert layers[i].id == t + IdSuffix;
    }
  }

  /** An analysis holding only Polygon yields exactly one fill layer with the default fill paint. */
  lemma PolygonStyleExample(ranges: map<string, Range>)
    ensures GenerateLayerStyle(Analysis(["Polygon"], ranges)) ==
              [Layer("Polygon-layer", Fill, "geojson-data", map["fill-color" := Color("#007cbf"), "fill-opacity" := Amount(0.5)])]
  {
    assert "Polygon" + IdSuffix == "Polygon-layer";
  }

  /** No geometry types, no layers. */
  lemma EmptyStyleExample(ranges: map<string, Range>)
    ensures GenerateLayerStyle(Analysis([], ranges)) == []
  {
  }
}

=== FILE: strings.dfy ===
/**
 * The string operations the component applies to attribute values:
 * JavaScript's `String.prototype.split` with a one-character separator,
 * its inverse `join`, and `trim`.
 */
module Strings {

  /** Number of occurrences of `c` in `s`. */
  function Count(s: string, c: char): nat
  {
    if |s| == 0 then 0 else (if s[0] == c then 1 else 0) + Count(s[1..], c)
  }

  /** `s.split(sep)`: the maximal `sep`-free runs between separators, empty ones included. */
  function Split(s: string, sep: char): (fields: seq<string>)
    ensures |fields| == Count(s, sep) + 1
    ensures forall i :: 0 <= i < |fields| ==> sep !in fields[i]
    decreases |s|
  {
    if |s| == 0 then [""]
    else
      var rest := Split(s[1..], sep);
      if s[0] == sep then [""] + rest
      else [[s[0]] + rest[0]] + rest[1..]
  }

  /** `fields.join(sep)`. */
  function Join(fields: seq<string>, sep: char): string
    requires |fields| >= 1
    decreases |fields|
  {
    if |fields| == 1 then fields[0] else fields[0] + [sep] + Join(fields[1..], sep)
  }

  /** Joining the fields of a split gives back the original string. */
  lemma {:induction false} JoinSplit(s: string, sep: char)
    ensures Join(Split(s, sep), sep) == s
    decreases |s|
  {
    if |s| > 0 {
      var rest := Split(s[1..], sep);
      JoinSplit(s[1..], sep);
      if s[0] == sep {
        assert Split(s, sep) == [""] + rest;
        assert ([""] + rest)[1..] == rest;
        assert s == [sep] + s[1..];
      } else {
        var fields := Split(s, sep);
        assert fields == [[s[0]] + rest[0]] + rest[1..];
        if |rest| == 1 {
          assert s == [s[0]] + s[1..];
        } else {
          assert fields[1..] == rest[1..];
          assert Join(rest, sep) == rest[0] + [sep] + Join(rest[1..], sep);
          assert s == [s[0]] + s[1..];
        }
      }
    }
  }

  /** A separator-free string splits into itself alone. */
  lemma {:induction false} SplitFree(f: string, sep: char)
    requires sep !in f
    ensures Split(f, sep) == [f]
    decreases |f|
  {
    if |f| > 0 {
      assert sep !in f[1..];
      SplitFree(f[1..], sep);
      assert f == [f[0]] + f[1..];
    }
  }

  /** A separator-free prefix followed by the separator becomes the first field. */
  lemma {:induction false} SplitAfterField(f: string, sep: char, t: string)
    requires sep !in f
    ensures Split(f + [sep] + t, sep) == [f] + Split(t, sep)
    decreases |f|
  {
    var s := f + [sep] + t;
    if |f| == 0 {
      assert s == [sep] + t;
      assert s[1..] == t;
    } else {
      assert s[1..] == f[1..] + [sep] + t;
      assert sep !in f[1..];
      SplitAfterField(f[1..], sep, t);
      assert f == [f[0]] + f[1..];
    }
  }

  /** Splitting the join of separator-free fields gives back the fields. */
  lemma {:induction false} SplitJoin(fields: seq<string>, sep: char)
    requires |fields| >= 1
    requires forall i :: 0 <= i < |fields| ==> sep !in fields[i]
    ensures Split(Join(fields, sep), sep) == fields
    decreases |fields|
  {
    if |fields| == 1 {
      SplitFree(fields[0], sep);
    } else {
      SplitJoin(fields[1..], sep);
      SplitAfterField(fields[0], sep, Join(fields[1..], sep));
      assert fields == [fields[0]] + fields[1..];
    }
  }

  /**
   * The characters JavaScript's `trim` removes: the white space characters
   * (tab, vertical tab, form feed, the byte-order mark and every Unicode space
   * separator) and the line terminators (LF, CR, U+2028, U+2029).
   */
  predicate IsWhitespace(c: char)
  {
    || c == '\t' || c == '\U{000B}' || c == '\U{000C}' || c == '\U{FEFF}'
    || c == ' ' || c == '\U{00A0}' || c == '\U{1680}' || ('\U{2000}' <= c <= '\U{200A}')
    || c == '\U{202F}' || c == '\U{205F}' || c == '\U{3000}'
    || c == '\n' || c == '\r' || c == '\U{2028}' || c == '\U{2029}'
  }

  /** `s` with its leading whitespace removed. */
  function TrimStart(s: string): (r: string)
    ensures |r| <= |s| && r == s[|s| - |r|..]
    ensures forall i :: 0 <= i < |s| - |r| ==> IsWhitespace(s[i])
    ensures |r| > 0 ==> !IsWhitespace(r[0])
    decreases |s|
  {
    if |s| > 0 && IsWhitespace(s[0]) then TrimStart(s[1..]) else s
  }

  /** `s` with its trailing whitespace removed. */
  function TrimEnd(s: string): (r: string)
    ensures |r| <= |s| && r == s[..|r|]
    ensures forall i :: |r| <= i < |s| ==> IsWhitespace(s[i])
    ensures |r| > 0 ==> !IsWhitespace(r[|r| - 1])
    decreases |s|
  {
    if |s| > 0 && IsWhitespace(s[|s| - 1]) then TrimEnd(s[..|s| - 1]) else s
  }

  /** `r` is the infix of `s` starting at `a`, and everything outside it is whitespace. */
  ghost predicate StrippedInfix(s: string, r: string, a: int)
  {
    && 0 <= a <= |s| - |r|
    && r == s[a..a + |r|]
    && (forall i :: 0 <= i < a ==> IsWhitespace(s[i]))
    && (forall i :: a + |r| <= i < |s| ==> IsWhitespace(s[i]))
  }

  /** `s.trim()`: the infix of `s` left after stripping whitespace from both ends. */
  function Trim(s: string): (r: string)
    ensures exists a :: StrippedInfix(s, r, a)
    ensures |r| > 0 ==> !IsWhitespace(r[0]) && !IsWhitespace(r[|r| - 1])
  {
    var t := TrimStart(s);
    var r := TrimEnd(t);
    assert StrippedInfix(s, r, |s| - |t|);
    r
  }
}

=== FILE: template.dfy ===
/**
 * `populateTemplate`: every non-overlapping `${key}` in the template, with
 * `key` one or more word characters (`[A-Za-z0-9_]`), is replaced left to
 * right by `data[key]` when that key is defined, and kept literally otherwise.
 */
module Template {
  import opened Wrappers

  /** The regular-expression class `\w`. */
  predicate IsWordChar(c: char)
  {
    ('A' <= c <= 'Z') || ('a' <= c <= 'z') || ('0' <= c <= '9') || c == '_'
  }

  /** A key the pattern `\w+` accepts. */
  predicate IsKey(k: string)
  {
    |k| >= 1 && forall i :: 0 <= i < |k| ==> IsWordChar(k[i])
  }

  /** The placeholder text for `key`. */
  function Placeholder(key: string): string
  {
    "${" + key + "}"
  }

  /** Length of the longest run of word characters at the start of `s` (what greedy `\w+` consumes). */
  function WordRun(s: string): (n: nat)
    ensures n <= |s|
    decreases |s|
  {
    if |s| > 0 && IsWordChar(s[0]) then 1 + WordRun(s[1..]) else 0
  }

  /** The run is made of word characters and stops at the end or at a non-word character. */
  lemma {:induction false} WordRunIsMaximal(s: string)
    ensures forall i :: 0 <= i < WordRun(s) ==> IsWordChar(s[i])
    ensures WordRun(s) < |s| ==> !IsWordChar(s[WordRun(s)])
    decreases |s|
  {
    if |s| > 0 && IsWordChar(s[0]) {
      WordRunIsMaximal(s[1..]);
      forall i | 0 <= i < WordRun(s)
        ensures IsWordChar(s[i])
      {
        if i > 0 {
          assert s[i] == s[1..][i - 1];
        }
      }
    }
  }

  /** The key length of a match of `\$\{(\w+)\}` at the very start of `s`, if there is one. */
  function MatchAt(s: string): (m: Option<nat>)
    ensures m.Some? ==> 3 + m.value <= |s| && s[0] == '$' && s[1] == '{' && s[2 + m.value] == '}'
    ensures m.Some? ==> IsKey(s[2..2 + m.value])
  {
    if |s| >= 2 && s[0] == '$' && s[1] == '{' then
      var n := WordRun(s[2..]);
      WordRunIsMaximal(s[2..]);
      assert forall i :: 0 <= i < n ==> s[2..2 + n][i] == s[2..][i];
      if n >= 1 && 2 + n < |s| && s[2 + n] == '}' then Some(n) else None
    else None
  }

  /** How many characters the scanner consumes at the start of a non-empty `s`: a whole match, or one character. */
  function Consumed(s: string): (n: nat)
    requires |s| > 0
    ensures 1 <= n <= |s|
  {
    match MatchAt(s)
    case Some(k) => 3 + k
    case None => 1
  }

  /** What the scanner emits for the consumed prefix: `data[key]`, the match itself, or the copied character. */
  function Emitted(s: string, data: map<string, string>): string
    requires |s| > 0
  {
    match MatchAt(s)
    case Some(k) => if s[2..2 + k] in data then data[s[2..2 + k]] else s[..3 + k]
    case None => [s[0]]
  }

  /**
   * The replacement performed by `templateString.replace(/\$\{(\w+)\}/g, ...)`:
   * scanning from the left, a match is replaced and scanning resumes after it,
   * so replacement text is never scanned again; any other character is copied.
   */
  function ReplacePlaceholders(template: string, data: map<string, string>): string
    decreases |template|
  {
    if |template| == 0 then ""
    else Emitted(template, data) + ReplacePlaceholders(template[Consumed(template)..], data)
  }

  /** `populateTemplate(data, template)`: the left-to-right scanner over the template's text. */
  method PopulateTemplate(data: map<string, string>, template: string) returns (populated: string)
    ensures populated == ReplacePlaceholders(template, data)
  {
    populated := "";
    var rest := template;
    while |rest| > 0
      invariant populated + ReplacePlaceholders(rest, data) == ReplacePlaceholders(template, data)
      decreases |rest|
    {
      var piece := Emitted(rest, data);
      var next := rest[Consumed(rest)..];
      SeqAssoc(populated, piece, ReplacePlaceholders(next, data));
      populated := populated + piece;
      rest := next;
    }
  }

  lemma SeqAssoc(a: string, b: string, c: string)
    ensures (a + b) + c == a + (b + c)
  {
  }

  /** `${key}` at the front is recognised as a whole, whatever follows it. */
  lemma {:induction false} MatchPlaceholder(key: string, rest: string)
    requires IsKey(key)
    ensures MatchAt(Placeholder(key) + rest) == Some(|key|)
  {
    var s := Placeholder(key) + rest;
    assert s[0] == '$' && s[1] == '{';
    assert s[2..] == key + ("}" + rest);
    WordRunOfKey(key, "}" + rest);
    assert s[2 + |key|] == '}';
  }

  lemma {:induction false} WordRunOfKey(key: string, rest: string)
    requires forall i :: 0 <= i < |key| ==> IsWordChar(key[i])
    requires |rest| > 0 && !IsWordChar(rest[0])
    ensures WordRun(key + rest) == |key|
    decreases |key|
  {
    if |key| > 0 {
      assert (key + rest)[1..] == key[1..] + rest;
      WordRunOfKey(key[1..], rest);
    } else {
      assert key + rest == rest;
    }
  }

  /**
   * A recognised placeholder becomes `data[key]` when the key is defined and
   * stays verbatim otherwise; the inserted value is not scanned again.
   */
  lemma SubstitutePlaceholder(key: string, rest: string, data: map<string, string>)
    requires IsKey(key)
    ensures ReplacePlaceholders(Placeholder(key) + rest, data) ==
              (if key in data then data[key] else Placeholder(key)) + ReplacePlaceholders(rest, data)
  {
    var s := Placeholder(key) + rest;
    MatchPlaceholder(key, rest);
    PlaceholderSlices(key, rest);
    MatchStep(s, data, key, Placeholder(key), rest);
  }

  /** The parts of `${key}` followed by more text. */
  lemma PlaceholderSlices(key: string, rest: string)
    ensures |Placeholder(key)| == 3 + |key|
    ensures (Placeholder(key) + rest)[2..2 + |key|] == key
    ensures (Placeholder(key) + rest)[..3 + |key|] == Placeholder(key)
    ensures (Placeholder(key) + rest)[3 + |key|..] == rest
  {
    var p := Placeholder(key);
    assert p == ['$', '{'] + key + ['}'];
    assert p[2..2 + |key|] == key;
    assert (p + rest)[2..2 + |key|] == p[2..2 + |key|];
  }

  /** The scanner's step at a match of `key`, spelled `matched`, followed by `rest`. */
  lemma MatchStep(s: string, data: map<string, string>, key: string, matched: string, rest: string)
    requires |s| > 0 && MatchAt(s) == Some(|key|)
    requires s[2..2 + |key|] == key && s[..3 + |key|] == matched && s[3 + |key|..] == rest
    ensures ReplacePlaceholders(s, data) == (if key in data then data[key] else matched) + ReplacePlaceholders(rest, data)
  {
    Unfold(s, data);
    assert Consumed(s) == 3 + |key|;
    assert Emitted(s, data) == (if key in data then data[key] else matched);
  }

  /** One step of the scanner on a non-empty text. */
  lemma Unfold(s: string, data: map<string, string>)
    requires |s| > 0
    ensures ReplacePlaceholders(s, data) == Emitted(s, data) + ReplacePlaceholders(s[Consumed(s)..], data)
  {
  }

  /** The scanner's step where no match starts: one character is copied. */
  lemma CopyStep(s: string, data: map<string, string>)
    requires |s| > 0 && MatchAt(s).None?
    ensures ReplacePlaceholders(s, data) == [s[0]] + ReplacePlaceholders(s[1..], data)
  {
  }

  /** Text without a `$` is copied unchanged and in order. */
  lemma {:induction false} CopyLiteralText(text: string, rest: string, data: map<string, string>)
    requires '$' !in text
    ensures ReplacePlaceholders(text + rest, data) == text + ReplacePlaceholders(rest, data)
    decreases |text|
  {
    if |text| > 0 {
      var s := text + rest;
      assert s[0] == text[0] && s[0] != '$';
      CopyStep(s, data);
      assert s[1..] == text[1..] + rest;
      assert '$' !in text[1..];
      CopyLiteralText(text[1..], rest, data);
      assert text == [text[0]] + text[1..];
    } else {
      assert text + rest == rest;
    }
  }

  /** With no data at all, every placeholder stays and the output equals the template. */
  lemma {:induction false} EmptyDataIsIdentity(template: string)
    ensures ReplacePlaceholders(template, map[]) == template
    decreases |template|
  {
    if |template| > 0 {
      match MatchAt(template)
      case Some(n) =>
        EmptyDataIsIdentity(template[3 + n..]);
        assert template == template[..3 + n] + template[3 + n..];
      case None =>
        EmptyDataIsIdentity(template[1..]);
        assert template == [template[0]] + template[1..];
    }
  }

  /** The template has no `${` anywhere. */
  predicate NoOpener(s: string)
  {
    forall i :: 0 <= i < |s| - 1 ==> !(s[i] == '$' && s[i + 1] == '{')
  }

  /** A template without `${` comes out unchanged, whatever the data. */
  lemma {:induction false} NoOpenerIsIdentity(template: string, data: map<string, string>)
    requires NoOpener(template)
    ensures ReplacePlaceholders(template, data) == template
    decreases |template|
  {
    if |template| > 0 {
      assert MatchAt(template).None?;
      assert NoOpener(template[1..]) by {
        forall i | 0 <= i < |template[1..]| - 1
          ensures !(template[1..][i] == '$' && template[1..][i + 1] == '{')
        {
          assert template[1..][i] == template[i + 1] && template[1..][i + 1] == template[i + 2];
        }
      }
      NoOpenerIsIdentity(template[1..], data);
      assert template == [template[0]] + template[1..];
    }
  }

  /**
   * A `${` that does not start a match (empty key, a non-word character
   * before the `}`, or no `}` at all) is kept, and so is the text after it
   * when that text has no further `$`.
   */
  lemma UnrecognisedOpenerKept(text: string, data: map<string, string>)
    requires '$' !in text
    requires MatchAt("${" + text).None?
    ensures ReplacePlaceholders("${" + text, data) == "${" + text
  {
    var s := "${" + text;
    assert s[1..] == "{" + text;
    assert '$' !in "{" + text;
    CopyLiteralText("{" + text, "", data);
    assert ("{" + text) + "" == "{" + text;
    assert s == ['$'] + s[1..];
  }

  /** `${}`: an empty key is not recognised. */
  lemma EmptyKeyKept(data: map<string, string>)
    ensures ReplacePlaceholders("${}", data) == "${}"
  {
    assert "${}" == "${" + "}";
    assert WordRun("}") == 0;
    UnrecognisedOpenerKept("}", data);
  }

  /** `${a-b}`: a key with a non-word character is not recognised. */
  lemma NonWordKeyKept(data: map<string, string>)
    ensures ReplacePlaceholders("${a-b}", data) == "${a-b}"
  {
    assert "${a-b}" == "${" + "a-b}";
    assert WordRun("-b}") == 0;
    assert "a-b}"[1..] == "-b}";
    assert WordRun("a-b}") == 1;
    UnrecognisedOpenerKept("a-b}", data);
  }

  /** `${a`: an unterminated placeholder is not recognised. */
  lemma UnterminatedKept(data: map<string, string>)
    ensures ReplacePlaceholders("${a", data) == "${a"
  {
    assert "${a" == "${" + "a";
    assert "a"[1..] == "";
    assert WordRun("a") == 1;
    UnrecognisedOpenerKept("a", data);
  }

  /** A value that itself looks like a placeholder is inserted literally, not expanded. */
  lemma ValuesNotRescanned(data: map<string, string>)
    requires "a" in data && data["a"] == "${b}"
    requires "b" in data
    ensures ReplacePlaceholders("${a}", data) == "${b}"
  {
    assert IsKey("a");
    assert "${a}" == Placeholder("a") + "";
    SubstitutePlaceholder("a", "", data);
  }
}

=== FILE: wrappers.dfy ===
/** Optional values and results shared by the other modules. */
module Wrappers {

  /** A value that may be absent (JavaScript `null` / `undefined` at an interface boundary). */
  datatype Option<+T> = None | Some(value: T)

  /** The outcome of an operation that can abort with an error. */
  datatype Result<+R, +E> = Success(value: R) | Failure(error: E)
}

=== FILE: zoom.dfy ===
/**
 * `handleZoom`: the zoom level and the two `zoom-breakpoints` are turned into
 * exactly one of the host element's classes `far`, `middle` and `near`.
 */
module Zoom {
  import opened Wrappers
  import opened JsValues
  import Strings

  /** How close the view is to the ground. */
  datatype Proximity = Far | Middle | Near

  /** The two thresholds, as `Number(...)` produced them (possibly NaN or `undefined`). */
  datatype Breakpoints = Breakpoints(mid: JsNumber, far: JsNumber)

  /** The thresholds used when the element has no `zoom-breakpoints` attribute. */
  const DefaultBreakpoints: Breakpoints := Breakpoints(Finite(15.0), Finite(10.0))

  /** The three classes `handleZoom` manages on the element. */
  const ProximityClasses: set<string> := {"far", "middle", "near"}

  function ClassName(p: Proximity): (name: string)
    ensures name in ProximityClasses
  {
    match p
    case Far => "far"
    case Middle => "middle"
    case Near => "near"
  }

  /** Position of a class on the far-to-near scale. */
  function Rank(p: Proximity): nat
  {
    match p
    case Far => 0
    case Middle => 1
    case Near => 2
  }

  /**
   * The breakpoints from the `zoom-breakpoints` attribute: the first comma
   * field is `mid`, the second `far`, later fields are ignored, a missing
   * second field is `undefined`, and the order is not checked.
   * `toNumber` stands for JavaScript's `Number`.
   */
  function ParseBreakpoints(attr: Option<string>, toNumber: string -> JsNumber): (b: Breakpoints)
    ensures attr.None? ==> b == DefaultBreakpoints
    ensures attr.Some? && ',' !in attr.value ==> b == Breakpoints(toNumber(attr.value), NaN)
  {
    match attr
    case None => DefaultBreakpoints
    case Some(s) =>
      var fields := Strings.Split(s, ',');
      assert ',' !in s ==> fields == [s] by {
        if ',' !in s { Strings.SplitFree(s, ','); }
      }
      Breakpoints(toNumber(fields[0]), if |fields| >= 2 then toNumber(fields[1]) else NaN)
  }

  /** The attribute `"a,b,..."` gives `mid = Number(a)` and `far = Number(b)`, whatever follows. */
  lemma ParseBreakpointsFields(fields: seq<string>, toNumber: string -> JsNumber)
    requires |fields| >= 2
    requires forall i :: 0 <= i < |fields| ==> ',' !in fields[i]
    ensures ParseBreakpoints(Some(Strings.Join(fields, ',')), toNumber) == Breakpoints(toNumber(fields[0]), toNumber(fields[1]))
  {
    var s := Strings.Join(fields, ',');
    Strings.SplitJoin(fields, ',');
    assert s == fields[0] + [','] + Strings.Join(fields[1..], ',');
    assert s[|fields[0]|] == ',';
  }

  /** The `if / else if / else` chain of `handleZoom`, with JavaScript's comparisons against NaN and the infinities. */
  function Classify(zoom: real, b: Breakpoints): (p: Proximity)
    ensures p == Far <==> Below(zoom, b.far)
    ensures p == Middle <==> AtLeast(zoom, b.far) && AtMost(zoom, b.mid)
  {
    if Below(zoom, b.far) then Far
    else if AtLeast(zoom, b.far) && AtMost(zoom, b.mid) then Middle
    else Near
  }

  /** An infinite `far` breakpoint puts every zoom in `far`; breakpoints `Infinity,-Infinity` (mid, far) put every zoom in `middle`. */
  lemma InfiniteBreakpoints(zoom: real, mid: JsNumber)
    ensures Classify(zoom, Breakpoints(mid, PosInfinity)) == Far
    ensures Classify(zoom, Breakpoints(PosInfinity, NegInfinity)) == Middle
  {
  }

  /** With finite, ordered breakpoints the classes are three consecutive zoom bands, `middle` closed at both ends. */
  lemma ClassifyBands(zoom: real, mid: real, far: real)
    requires far <= mid
    ensures Classify(zoom, Breakpoints(Finite(mid), Finite(far))) == Far <==> zoom < far
    ensures Classify(zoom, Breakpoints(Finite(mid), Finite(far))) == Middle <==> far <= zoom <= mid
    ensures Classify(zoom, Breakpoints(Finite(mid), Finite(far))) == Near <==> zoom > mid
  {
  }

  /** Zooming in never moves the class further away, when the breakpoints are ordered. */
  lemma ClassifyMonotone(z1: real, z2: real, mid: real, far: real)
    requires far <= mid && z1 <= z2
    ensures Rank(Classify(z1, Breakpoints(Finite(mid), Finite(far)))) <= Rank(Classify(z2, Breakpoints(Finite(mid), Finite(far))))
  {
  }

  /** The breakpoint order is not checked: with `mid < far` the class `middle` is never chosen. */
  lemma InvertedBreakpointsSkipMiddle(zoom: real, mid: real, far: real)
    requires mid < far
    ensures Classify(zoom, Breakpoints(Finite(mid), Finite(far))) != Middle
    ensures Classify(zoom, Breakpoints(Finite(mid), Finite(far))) == Near <==> zoom >= far
  {
  }

  /** The class set after one class is added and the other two removed. */
  function ApplyProximity(classes: set<string>, p: Proximity): (r: set<string>)
    ensures r * ProximityClasses == {ClassName(p)}
    ensures forall c :: c !in ProximityClasses ==> (c in r <==> c in classes)
  {
    classes + {ClassName(p)} - (ProximityClasses - {ClassName(p)})
  }

  /**
   * `handleZoom(zoom)` on an element whose class list is `classes` and whose
   * `zoom-breakpoints` attribute is `attr`; calling it without an argument
   * (`zoom == None`) classifies zoom 0.
   */
  function HandleZoom(classes: set<string>, attr: Option<string>, toNumber: string -> JsNumber, zoom: Option<real>): (r: set<string>)
    ensures zoom.Some? ==> r * ProximityClasses == {ClassName(Classify(zoom.value, ParseBreakpoints(attr, toNumber)))}
    ensures zoom.None? ==> r * ProximityClasses == {ClassName(Classify(0.0, ParseBreakpoints(attr, toNumber)))}
    ensures forall c :: c !in ProximityClasses ==> (c in r <==> c in classes)
  {
    var z := match zoom case Some(v) => v case None => 0.0;
    ApplyProximity(classes, Classify(z, ParseBreakpoints(attr, toNumber)))
  }

  /** `handleZoom()` without an argument behaves exactly as `handleZoom(0)`. */
  lemma HandleZoomMissingArgument(classes: set<string>, attr: Option<string>, toNumber: string -> JsNumber)
    ensures HandleZoom(classes, attr, toNumber, None) == HandleZoom(classes, attr, toNumber, Some(0.0))
  {
  }

  /** Without the attribute: `far` below 10, `middle` from 10 to 15 inclusive, `near` above 15. */
  lemma HandleZoomDefaults(classes: set<string>, toNumber: string -> JsNumber, zoom: real)
    ensures "far" in HandleZoom(classes, None, toNumber, Some(zoom)) <==> zoom < 10.0
    ensures "middle" in HandleZoom(classes, None, toNumber, Some(zoom)) <==> 10.0 <= zoom <= 15.0
    ensures "near" in HandleZoom(classes, None, toNumber, Some(zoom)) <==> zoom > 15.0
  {
    var p := Classify(zoom, DefaultBreakpoints);
    var r := HandleZoom(classes, None, toNumber, Some(zoom));
    assert r * ProximityClasses == {ClassName(p)};
    assert "far" in r <==> "far" in r * ProximityClasses;
    assert "middle" in r <==> "middle" in r * ProximityClasses;
    assert "near" in r <==> "near" in r * ProximityClasses;
  }

  /** No class is ever stuck: the result does not depend on which proximity classes were set before. */
  lemma HandleZoomForgetsPrevious(c1: set<string>, c2: set<string>, attr: Option<string>, toNumber: string -> JsNumber, zoom: Option<real>)
    requires c1 - ProximityClasses == c2 - ProximityClasses
    ensures HandleZoom(c1, attr, toNumber, zoom) == HandleZoom(c2, attr, toNumber, zoom)
  {
    var r1 := HandleZoom(c1, attr, toNumber, zoom);
    var r2 := HandleZoom(c2, attr, toNumber, zoom);
    forall c
      ensures c in r1 <==> c in r2
    {
      if c !in ProximityClasses {
        assert c in c1 <==> c in c1 - ProximityClasses;
        assert c in c2 <==> c in c2 - ProximityClasses;
      } else {
        assert c in r1 <==> c in r1 * ProximityClasses;
        assert c in r2 <==> c in r2 * ProximityClasses;
      }
    }
  }

  /** A `zoom-breakpoints` attribute without a comma leaves `far` undefined, so every zoom is classified `near`. */
  lemma SingleFieldBreakpointsAlwaysNear(classes: set<string>, s: string, toNumber: string -> JsNumber, zoom: Option<real>)
    requires ',' !in s
    ensures HandleZoom(classes, Some(s), toNumber, zoom) * ProximityClasses == {"near"}
  {
  }
}
